=== FILE: README.md ===
# Visual State Machine Builder — editor store model

A Dafny model of the editor document store of a browser-based finite-state-machine
diagram editor, with the small pieces of decision logic the canvas and the node boxes
put on top of it.

The store holds the live document (state nodes and transitions), the current
selection, and a linear history of `{nodes, connections}` snapshots with a cursor
`historyIndex` that starts at -1. Every structural edit — add, move, remove (with
cascading delete of attached transitions), connect, wholesale replace — goes through
one commit routine that truncates the redo future, appends the new snapshot and
moves the cursor onto it. Undo and redo only move the cursor. The exporter projects
a document to `state name -> event -> destination name`.

Everything is functional: `Store` and `Doc` are immutable datatypes, each store
operation is a function `Store -> Store`, and the exporter is a function
`Doc -> map<string, map<string, string>>`.

Modules, one per concern:

- `Wrappers` — `Option`, standing for `null`/`undefined` and optional fields.
- `Seqs` — order-preserving `Filter` (JavaScript's `Array.prototype.filter`).
- `Decimal` — the decimal rendering of a count, as in `` `event${n}` `` and `` `State ${n}` ``.
- `Document` — `StateNode`, `Transition`, `Doc`, and `FindNode` (`Array.prototype.find` by id).
- `EditorStore` — the store, its invariant `Valid`, the commit routine, all operations,
  and sessions of calls (`Action`, `Apply`, `Run`).
- `Exporter` — the export projection and a reference definition (`Target`) it is proved against.
- `Canvas` — "Add State", "Clear All" and the guard on loaded data.
- `NodeView` — click-to-select / click-to-connect and drag end.

Modelling decisions:

- The transition field `label` is a Dafny keyword, so it is called `caption` here.
- Coordinates are `int`. They are only copied or offset, never compared.
- The fresh node id ("uuid") is a parameter of `Canvas.HandleAdd`.
- The confirm dialog of "Clear All" is a boolean parameter of `Canvas.HandleClear`.
- Decoding a link or a stored snapshot (base64 plus JSON) is an `Option<Payload>`
  input. `None` is a decode failure, which leaves the store unchanged.
- A selection is an `Option<string>`. The click rule tests it with JavaScript
  truthiness, so a selected empty-string id counts as no selection (`NodeView.HasSelection`).
- `PushHistory` models the clamping of `history.slice(0, historyIndex + 1)` exactly
  (`EditorStore.SliceEnd`), so the commit routine is total.
- `Undo` and `Redo` require only that the snapshot they would read exists. In any
  other state the source dereferences `undefined` and throws. Every reachable store
  satisfies the invariant `Valid`, which implies both preconditions.
- The first commit of a session lands on cursor 0, where undo is a no-op, so it cannot be undone.
  This includes the start-up load of a link or stored snapshot (`EditorStore.FirstCommitNotUndoable`,
  `Canvas.StartupLoadNotUndoable`). Later commits can be undone.
- `moveNode` on an id that no node has still commits a snapshot identical to the
  live document. The model keeps this behaviour (`EditorStore.MoveMissingCommitsDuplicate`).
- Labels `event<N>` are positional. After a removal they can repeat
  (`EditorStore.LabelRepeatsAfterRemoval`). While connections are only appended, they stay distinct
  (`EditorStore.ConnectKeepsNumbered`).

## Model

| member | source | states |
|---|---|---|
| EditorStore.Init | store/useEditorStore.ts:36-41 | A new store has no nodes, no connections, no selection, an empty history and cursor -1, and satisfies the store invariant |
| EditorStore.SliceEnd | store/useEditorStore.ts:45 | The end `slice(0, end)` uses: `end` itself when within the history, the length when `end` is past it, `length + end` when `end` is negative, and 0 when that is still negative |
| EditorStore.PushHistory | store/useEditorStore.ts:43-53 | From any state, a commit keeps the selection, makes the new document live and the last snapshot under the cursor, and leaves the invariant holding. When the old cursor is in range (-1 up to the last index), the new history is the old one up to the cursor plus exactly the new snapshot |
| EditorStore.CommitKeepsPast | store/useEditorStore.ts:43-53 | From a valid store, a commit yields old cursor + 2 snapshots, leaves the first old cursor + 1 unchanged, puts the new document after them, and leaves nothing to redo |
| EditorStore.AddNode | store/useEditorStore.ts:55-59 | The node is appended at the end, the connections are unchanged, and one snapshot is committed |
| EditorStore.MoveAll | store/useEditorStore.ts:63 | Same length; every node keeps its id and name; nodes with the id get the new (x, y); the others are unchanged |
| EditorStore.MoveNode | store/useEditorStore.ts:61-65 | Node count, order, ids and names are preserved; nodes with the id get the new position; other nodes and all connections are unchanged; a snapshot is committed |
| EditorStore.FirstCommitNotUndoable | store/useEditorStore.ts:43-106 | The first commit onto an empty history yields the one-snapshot history with cursor 0, where undo is a no-op |
| EditorStore.MoveMissingCommitsDuplicate | store/useEditorStore.ts:61-65 | Moving an id no node has leaves the document unchanged but still commits a snapshot equal to the previous one |
| EditorStore.RemoveNode | store/useEditorStore.ts:67-74 | No node with the id and no connection touching it remains; every other node and connection is kept with the same number of copies; both results are subsequences of the originals (order kept) |
| EditorStore.RemoveNodeKeepsOrder | store/useEditorStore.ts:67-74 | Removal distributes over any split of the node and connection sequences, so kept items stay in their original relative order |
| EditorStore.RemoveNodeKeepsClosed | store/useEditorStore.ts:67-74 | If every connection referenced existing nodes before a removal, it still does after it (cascading delete keeps referential integrity) |
| EditorStore.RemoveAbsentNode | store/useEditorStore.ts:67-74 | Removing an id that no node or connection mentions commits the live document unchanged |
| EditorStore.EventLabel | store/useEditorStore.ts:83 | A generated label is the word `event` followed by a digit string that reads back as the connection number |
| EditorStore.ConnectNodes | store/useEditorStore.ts:76-87 | Nodes are unchanged; the connections gain exactly one entry at the end, `from -> to` labelled `event<old count + 1>`, with no check on the endpoints; a snapshot is committed |
| EditorStore.EventLabelInjective | store/useEditorStore.ts:83 | Two generated labels are equal only when their numbers are equal (from the read-back clause of `EventLabel`) |
| EditorStore.ConnectKeepsNumbered | store/useEditorStore.ts:76-87 | If the connections are labelled event1..eventN in order, a connect keeps that numbering and all labels are pairwise distinct |
| EditorStore.LabelRepeatsAfterRemoval | store/useEditorStore.ts:67-87 | From a fresh store, after connecting a->a and b->b and removing a, the next connect repeats the surviving label `event2`, so labels are not unique |
| EditorStore.SelectNode | store/useEditorStore.ts:89 | Setting the selection leaves the document, the history and the cursor alone |
| EditorStore.SetState | store/useEditorStore.ts:91-94 | A wholesale replacement makes the given document live and commits it like any edit |
| EditorStore.Undo | store/useEditorStore.ts:96-106 | Undo never changes the history or the selection; it is a no-op exactly when the cursor is at most 0; otherwise the cursor steps back and the previous snapshot becomes live; it preserves the invariant |
| EditorStore.Redo | store/useEditorStore.ts:108-118 | Redo never changes the history or the selection; it is a no-op exactly when the cursor is at the last snapshot; otherwise the cursor steps forward and the next snapshot becomes live; it preserves the invariant |
| EditorStore.UndoThenRedo | store/useEditorStore.ts:96-118 | When undo applies, following it with redo restores the store exactly |
| EditorStore.RedoThenUndo | store/useEditorStore.ts:96-118 | When redo applies, following it with undo restores the store exactly |
| EditorStore.EditAfterUndoDiscardsFuture | store/useEditorStore.ts:43-110 | An edit after an undo cuts the history to the undone-to cursor plus the new snapshot, keeps the earlier past, puts the cursor at the end, and redo then does nothing |
| EditorStore.Apply | store/useEditorStore.ts:55-118 | Any store call preserves the invariant; every edit commits exactly one snapshot after the cursor; selection, undo and redo never change the history |
| EditorStore.Run | store/useEditorStore.ts:36-118 | Every sequence of store calls from a valid store ends in a valid store, so the live document is always the snapshot under the cursor |
| EditorStore.EditsExtendHistory | store/useEditorStore.ts:43-53 | With the cursor at the end, N edits without undo add exactly N snapshots and leave the cursor on the last one |
| EditorStore.EditsFromInit | store/useEditorStore.ts:36-53 | From a new store, N edits without undo give a history of length N with the cursor at N - 1 |
| Seqs.Filter | store/useEditorStore.ts:69-72 | Every element of the result passes and comes from the input; every passing element is kept with the same number of copies; the result is a subsequence of the input |
| Seqs.FilterConcat | store/useEditorStore.ts:69-72 | Filtering a concatenation is the concatenation of the filtered parts |
| Decimal.NatToString | store/useEditorStore.ts:83 | The rendering of a count is a non-empty digit string without a leading zero, one digit long exactly below 10 |
| Decimal.ParseNatToString | store/useEditorStore.ts:83 | Reading the rendering of a count back as decimal gives the count |
| Decimal.NatToStringInjective | store/useEditorStore.ts:83 | Distinct counts render to distinct strings (proved through the parse-back round trip) |
| Document.FindIndex | components/Canvas.tsx:70-71 | Finds the first node with the id: none exactly when no node has it, otherwise an in-range index whose node has the id and before which none does |
| Document.FindNode | components/Canvas.tsx:70-71 | The found node is the first node in sequence order with the requested id; nothing is found exactly when no node has the id |
| Exporter.EventKey | components/Canvas.tsx:73 | The export key is the label when present and non-empty, otherwise `event`; it is never empty |
| Exporter.Skeleton | components/Canvas.tsx:65-68 | The initial machine has exactly the node names as keys, each with an empty event table |
| Exporter.Record | components/Canvas.tsx:70-73 | A dangling transition leaves the machine unchanged; a resolving one sets only the from-node name's entry for its key to the to-node's name |
| Exporter.RecordAll | components/Canvas.tsx:69-75 | Recording the transitions in order never adds or removes a state key |
| Exporter.Export | components/Canvas.tsx:64-77 | The exported key set is exactly the set of node names |
| Exporter.ExportEntry | components/Canvas.tsx:64-77 | A state has an entry for an event exactly when some resolving transition from a node with that name exports under that key, and the value is the destination name of the last such transition |
| Exporter.RecordAllEntry | components/Canvas.tsx:69-75 | Recording transitions in order agrees with the last-wins reference for every name and key, falling back to the starting table |
| Exporter.DanglingIgnored | components/Canvas.tsx:70-72 | Appending a transition with a missing endpoint does not change the export |
| Exporter.LaterTransitionWins | components/Canvas.tsx:69-75 | An appended resolving transition overwrites its state-and-event slot and leaves every other entry as it was |
| Exporter.ExportWithoutConnections | components/Canvas.tsx:65-68 | Without connections every state exports an empty event table |
| Exporter.ExportEmpty | components/Canvas.tsx:64-68 | The empty document exports the empty machine |
| Exporter.ExportScenario | components/Canvas.tsx:64-77 | Two states and one `event1` transition export as `{"State 1": {"event1": "State 2"}, "State 2": {}}` |
| Canvas.HandleAdd | components/Canvas.tsx:59-62 | "Add State" appends one node with the supplied id, named `State <new count>`, at (100, 100), leaves connections alone and commits |
| Canvas.StateName | components/Canvas.tsx:61 | A default name is `State ` followed by a digit string that reads back as the node number |
| Canvas.StartupLoadNotUndoable | components/Canvas.tsx:25-51 | A load onto the fresh store, as at start-up, becomes the only snapshot, and undo then does nothing |
| Canvas.AddedNamesDistinct | components/Canvas.tsx:61 | Two consecutive "Add State" calls give the two new nodes different names |
| Canvas.HandleClear | components/Canvas.tsx:85-91 | Once confirmed, clearing commits the empty document as an ordinary snapshot; unconfirmed, nothing changes |
| Canvas.ClearIsUndoable | components/Canvas.tsx:85-91 | From any valid store, one undo after a clear brings back the cleared document (on a fresh store it was already empty), and redo clears again |
| Canvas.LoadPayload | components/Canvas.tsx:25-51 | Loaded data is committed exactly when it decoded and has both `nodes` and `connections`; otherwise the store is unchanged |
| Canvas.LoadIsUndoable | components/Canvas.tsx:31-33 | Once the history is non-empty, one undo after loading brings back the previous document |
| Canvas.AddConnectExportScenario | components/Canvas.tsx:59-77 | From a new store, adding two states and connecting them gives 3 snapshots, cursor 2, and the expected exported machine |
| NodeView.HasSelection | components/Node.tsx:24 | A selection is truthy exactly when it is present and not the empty string |
| NodeView.Click | components/Node.tsx:23-30 | With a different node selected, a click appends `selected -> id` labelled `event<old count + 1>`, commits, and clears the selection; otherwise it selects the clicked node without touching document or history |
| NodeView.ClickNeverSelfLoops | components/Node.tsx:24-25 | A click leaves the connections as they are or appends exactly one that is not a self-loop |
| NodeView.ClickSelectedAgain | components/Node.tsx:24-28 | Clicking the selected node leaves the whole store unchanged |
| NodeView.TwoClicksConnect | components/Node.tsx:23-30 | From no selection, clicking two different nodes, the first with a non-empty id, appends one transition between them, with the next generated label, and ends with no selection |
| NodeView.DragEnd | components/Node.tsx:31 | Drag end commits exactly one snapshot, moving the dragged node to the box's rendered position plus the drag offset; every node keeps its id and name, other nodes and all connections are unchanged |
| NodeView.DragFromOwnPosition | components/Node.tsx:6-31 | Dragging a box from its own rendered position moves that node by exactly the drag offset |

## Left out

- Browser I/O: reading and writing `localStorage`, reading the `data` query parameter, and `router.push` for share links (components/Canvas.tsx:25-57, 79-83). These are modelled only as a decoded payload passed in.
- `atob`/`btoa`/`JSON.parse`/`JSON.stringify`: foreign library calls. A decode failure is `None`, and the textual JSON rendering of the export is not modelled.
- Payload field checks accept only arrays of well-formed nodes and transitions. The source's truthiness test would also let other truthy values through. The model does not represent untyped JSON.
- Exporter.Export: the machine is a Dafny map, not a JavaScript object. In the source, a state named `__proto__` sets the object's prototype instead of adding a key, and an event key `__proto__` is ignored. `JSON.stringify` then leaves both out. The model exports them like any other name. Such names can only arrive through loaded data.
- The `{ on: … }` wrapper around each state's event table in the exported JSON: each state maps directly to its event table, so the export `{"S": {"on": {"e": "T"}}}` is modelled as `S -> {e -> T}`.
- `window.confirm`: a boolean parameter.
- SVG line and label geometry (components/Canvas.tsx:134-171): presentational, with float division.
- framer-motion drag capture and the `mounted` render guards (components/Node.tsx:10-16, 21-35).
- zustand's `create`, subscriptions and React hooks: the store is an explicit value threaded through functions.
- Uuid generation: the id is a parameter.
- Floating-point coordinates: coordinates are unbounded integers.
- The preview page (app/preview/[id]/page.tsx) only repeats the load guard and the rendering; its load is `Canvas.LoadPayload`.

=== FILE: canvas.dfy ===
/**
 * The decision logic of the canvas toolbar: adding a numbered state,
 * clearing the diagram, and committing a loaded document only when both of
 * its fields are present.
 */
module Canvas {
  import opened Wrappers
  import opened Decimal
  import opened Document
  import opened EditorStore
  import opened Exporter

  /** The default name of the `n`-th state: `State ` followed by a number that reads back as `n`. */
  function StateName(n: nat): (r: string)
    ensures |r| > 6 && r[..6] == "State "
    ensures forall i :: 6 <= i < |r| ==> IsDigit(r[i])
    ensures ParseDecimal(r[6..]) == n
  {
    ParseNatToString(n);
    var r := "State " + NatToString(n);
    assert r[6..] == NatToString(n);
    r
  }

  /**
   * "Add State": appends a node with the caller-supplied fresh `id`, named
   * after the new node count and placed at (100, 100).
   */
  function HandleAdd(s: Store, id: string): (r: Store)
    ensures Commits(s, r)
    ensures |r.doc.nodes| == |s.doc.nodes| + 1
    ensures r.doc.nodes[..|s.doc.nodes|] == s.doc.nodes
    ensures var n := r.doc.nodes[|s.doc.nodes|];
      n.id == id && n.name == StateName(|r.doc.nodes|) && n.x == 100 && n.y == 100
    ensures r.doc.connections == s.doc.connections
  {
    AddNode(s, StateNode(id, StateName(|s.doc.nodes| + 1), 100, 100))
  }

  /**
   * "Clear All": once `confirmed`, commits the empty document as an ordinary
   * snapshot; otherwise nothing changes.
   */
  function HandleClear(s: Store, confirmed: bool): (r: Store)
    ensures confirmed ==> Commits(s, r) && r.doc == EmptyDoc()
    ensures !confirmed ==> r == s
  {
    if confirmed then SetState(s, EmptyDoc()) else s
  }

  /**
   * A decoded payload: each field is present or missing. A present array is
   * truthy in JavaScript even when empty.
   */
  datatype Payload = Payload(nodes: Option<seq<StateNode>>, connections: Option<seq<Transition>>)

  /**
   * Committing a decoded link or restored snapshot. `None` is a decode
   * failure (invalid base64 or JSON), which is caught and leaves the store
   * alone; a payload missing either field is ignored as well.
   */
  function LoadPayload(s: Store, parsed: Option<Payload>): (r: Store)
    ensures (parsed.Some? && parsed.value.nodes.Some? && parsed.value.connections.Some?) ==>
      Commits(s, r) && r.doc == Doc(parsed.value.nodes.value, parsed.value.connections.value)
    ensures !(parsed.Some? && parsed.value.nodes.Some? && parsed.value.connections.Some?) ==>
      r == s
  {
    match parsed
    case Some(Payload(Some(ns), Some(cs))) => SetState(s, Doc(ns, cs))
    case _ => s
  }

  /** Clearing is undoable: one undo brings back the document that was cleared. */
  lemma ClearIsUndoable(s: Store)
    requires Valid(s)
    ensures Undo(HandleClear(s, true)).doc == s.doc
    ensures Redo(Undo(HandleClear(s, true))).doc == EmptyDoc()
  {
  }

  /** Once the history is non-empty, a loaded document is undoable in the same way. */
  lemma LoadIsUndoable(s: Store, p: Payload)
    requires Valid(s) && s.historyIndex >= 0
    requires p.nodes.Some? && p.connections.Some?
    ensures Undo(LoadPayload(s, Some(p))).doc == s.doc
  {
  }

  /** A load onto the fresh store, as at start-up, is the first snapshot and cannot be undone. */
  lemma StartupLoadNotUndoable(p: Payload)
    requires p.nodes.Some? && p.connections.Some?
    ensures var r := LoadPayload(Init(), Some(p));
      && r.doc == Doc(p.nodes.value, p.connections.value)
      && Undo(r) == r
  {
    FirstCommitNotUndoable(Init(), Doc(p.nodes.value, p.connections.value));
  }

  /** Adding states in a row numbers them 1, 2, ... and never repeats a name. */
  lemma AddedNamesDistinct(s: Store, id1: string, id2: string)
    ensures var r := HandleAdd(HandleAdd(s, id1), id2);
      r.doc.nodes[|s.doc.nodes|].name != r.doc.nodes[|s.doc.nodes| + 1].name
  {
  }

  /**
   * The end-to-end scenario: from a fresh store, add "a" and "b" named
   * "State 1" and "State 2", connect them, and export.
   */
  lemma AddConnectExportScenario()
    ensures var s := ConnectNodes(
                       AddNode(AddNode(Init(), StateNode("a", "State 1", 0, 0)),
                               StateNode("b", "State 2", 0, 0)),
                       "a", "b");
      && |s.history| == 3 && s.historyIndex == 2
      && Export(s.doc) == map["State 1" := map["event1" := "State 2"], "State 2" := map[]]
  {
    var s := ConnectNodes(
               AddNode(AddNode(Init(), StateNode("a", "State 1", 0, 0)),
                       StateNode("b", "State 2", 0, 0)),
               "a", "b");
    assert NatToString(1) == "1";
    assert EventLabel(1) == "event1";
    assert s.doc == Doc([StateNode("a", "State 1", 0, 0), StateNode("b", "State 2", 0, 0)],
                        [Transition("a", "b", Some("event1"))]);
    ExportScenario();
  }
}

=== FILE: decimal.dfy ===
/** Decimal rendering of natural numbers, as JavaScript's template literals render `${n}`. */
module Decimal {

  predicate IsDigit(c: char) {
    '0' <= c <= '9'
  }

  function DigitChar(d: nat): (c: char)
    requires d < 10
    ensures IsDigit(c)
  {
    "0123456789"[d]
  }

  function DigitValue(c: char): nat
    requires IsDigit(c)
  {
    (c as int - '0' as int) as nat
  }

  /** The shortest decimal spelling of `n`. */
  function NatToString(n: nat): (r: string)
    ensures |r| >= 1
    ensures forall i :: 0 <= i < |r| ==> IsDigit(r[i])
    ensures r[0] == '0' ==> n == 0
    ensures n < 10 <==> |r| == 1
  {
    if n < 10 then [DigitChar(n)]
    else NatToString(n / 10) + [DigitChar(n % 10)]
  }

  /** Reads back a string of decimal digits. */
  function ParseDecimal(s: string): nat
    requires forall i :: 0 <= i < |s| ==> IsDigit(s[i])
  {
    if s == [] then 0
    else 10 * ParseDecimal(s[..|s| - 1]) + DigitValue(s[|s| - 1])
  }

  lemma DigitRoundTrip(d: nat)
    requires d < 10
    ensures DigitValue(DigitChar(d)) == d
  {
  }

  /** Parsing the rendering of `n` gives `n` back. */
  lemma {:induction false} ParseNatToString(n: nat)
    ensures ParseDecimal(NatToString(n)) == n
  {
    var r := NatToString(n);
    if n < 10 {
      DigitRoundTrip(n);
    } else {
      var p := NatToString(n / 10);
      assert r == p + [DigitChar(n % 10)];
      assert r[..|r| - 1] == p;
      DigitRoundTrip(n % 10);
      ParseNatToString(n / 10);
    }
  }

  /** Distinct numbers have distinct renderings. */
  lemma NatToStringInjective(a: nat, b: nat)
    requires NatToString(a) == NatToString(b)
    ensures a == b
  {
    ParseNatToString(a);
    ParseNatToString(b);
  }
}

=== FILE: document.dfy ===
/** The diagram entities: state nodes, transitions and the document that pairs them. */
module Document {
  import opened Wrappers

  /** A state box on the canvas; `id` is its identity, `name` its label. */
  datatype StateNode = StateNode(id: string, name: string, x: int, y: int)

  /** A transition between two node ids; `caption` is the source's optional `label` field. */
  datatype Transition = Transition(from: string, to: string, caption: Option<string>)

  /** One diagram: nodes and connections, both in insertion order. */
  datatype Doc = Doc(nodes: seq<StateNode>, connections: seq<Transition>)

  /** The document the editor starts from and `Clear All` commits. */
  function EmptyDoc(): Doc {
    Doc([], [])
  }

  /** Some node in `ns` carries `id`. */
  predicate HasNode(ns: seq<StateNode>, id: string) {
    exists i :: 0 <= i < |ns| && ns[i].id == id
  }

  /** The set of names the nodes display (names need not be distinct). */
  function Names(ns: seq<StateNode>): set<string> {
    set i | 0 <= i < |ns| :: ns[i].name
  }

  /** Every connection references nodes that exist: no dangling transition. */
  predicate Closed(d: Doc) {
    forall j :: 0 <= j < |d.connections| ==>
      HasNode(d.nodes, d.connections[j].from) && HasNode(d.nodes, d.connections[j].to)
  }

  /** Position of the first node with id `id`, as `Array.prototype.findIndex` finds it. */
  function FindIndex(ns: seq<StateNode>, id: string): (r: Option<nat>)
    ensures r.None? <==> !HasNode(ns, id)
    ensures r.Some? ==> r.value < |ns| && ns[r.value].id == id
    ensures r.Some? ==> forall j :: 0 <= j < r.value ==> ns[j].id != id
  {
    if ns == [] then None
    else if ns[0].id == id then Some(0)
    else match FindIndex(ns[1..], id)
      case None => None
      case Some(k) => Some(k + 1)
  }

  /** The first node, in sequence order, with id `id` (`nodes.find(n => n.id === id)`). */
  function FindNode(ns: seq<StateNode>, id: string): (r: Option<StateNode>)
    ensures r.None? <==> !HasNode(ns, id)
    ensures r.Some? ==>
      && r.value.id == id
      && exists i :: 0 <= i < |ns| && ns[i] == r.value && (forall j :: 0 <= j < i ==> ns[j].id != id)
  {
    match FindIndex(ns, id)
    case None => None
    case Some(k) => Some(ns[k])
  }
}

=== FILE: editor_store.dfy ===
/**
 * The editor document store: the live document, the selection, and a linear
 * history of document snapshots with a cursor. Every structural edit goes
 * through one commit routine; undo and redo only move the cursor.
 */
module EditorStore {
  import opened Wrappers
  import opened Seqs
  import opened Decimal
  import opened Document

  /** The store's state. `doc` is the live `{nodes, connections}` pair. */
  datatype Store = Store(
    doc: Doc,
    selectedNode: Option<string>,
    history: seq<Doc>,
    historyIndex: int)

  /**
   * The store invariant: with no history the cursor is -1 and the document
   * is empty; otherwise the cursor is in range and the live document is the
   * snapshot under it.
   */
  predicate Valid(s: Store) {
    if s.history == [] then s.historyIndex == -1 && s.doc == EmptyDoc()
    else 0 <= s.historyIndex < |s.history| && s.doc == s.history[s.historyIndex]
  }

  /** The store as it is created. */
  function Init(): (s: Store)
    ensures s.doc.nodes == [] && s.doc.connections == []
    ensures s.selectedNode == None
    ensures s.history == [] && s.historyIndex == -1
    ensures Valid(s)
  {
    Store(EmptyDoc(), None, [], -1)
  }

  /**
   * The end position `Array.prototype.slice(0, end)` actually uses on an
   * array of length `len`: a negative end counts from the back, and both
   * directions are clamped to the array.
   */
  function SliceEnd(len: nat, end: int): (k: nat)
    ensures k <= len
    ensures 0 <= end <= len ==> k == end
    ensures end > len ==> k == len
    ensures end < 0 && len + end >= 0 ==> k == len + end
    ensures len + end < 0 ==> k == 0
  {
    if end < 0 then (if len + end < 0 then 0 else len + end)
    else if end > len then len
    else end
  }

  /**
   * `r` is the commit of `d` onto `s`: the selection is kept, the cursor sits
   * on the last snapshot, which is `d` and is live, and (from any state whose
   * cursor is in range) the history is the old one up to the cursor plus `d`.
   */
  predicate Commits(s: Store, r: Store) {
    && Valid(r)
    && r.selectedNode == s.selectedNode
    && r.history != []
    && r.historyIndex == |r.history| - 1
    && r.history[r.historyIndex] == r.doc
    && (-1 <= s.historyIndex < |s.history| ==>
          r.history == s.history[..s.historyIndex + 1] + [r.doc])
  }

  /** Commit routine: drop the redo future, append `d`, move the cursor to it. */
  function PushHistory(s: Store, d: Doc): (r: Store)
    ensures Commits(s, r) && r.doc == d
    ensures Valid(s) ==> |r.history| == s.historyIndex + 2
  {
    var kept := s.history[..SliceEnd(|s.history|, s.historyIndex + 1)];
    var h := kept + [d];
    Store(d, s.selectedNode, h, |h| - 1)
  }

  /** Appends `node` (no check that its id is fresh). */
  function AddNode(s: Store, node: StateNode): (r: Store)
    ensures Commits(s, r)
    ensures r.doc.nodes == s.doc.nodes + [node]
    ensures r.doc.connections == s.doc.connections
  {
    PushHistory(s, Doc(s.doc.nodes + [node], s.doc.connections))
  }

  /** Every node whose id is `id` moved to `(x, y)`; the others as they were. */
  function MoveAll(ns: seq<StateNode>, id: string, x: int, y: int): (r: seq<StateNode>)
    ensures |r| == |ns|
    ensures forall i :: 0 <= i < |ns| ==>
      r[i].id == ns[i].id && r[i].name == ns[i].name
    ensures forall i :: 0 <= i < |ns| && ns[i].id == id ==> r[i].x == x && r[i].y == y
    ensures forall i :: 0 <= i < |ns| && ns[i].id != id ==> r[i] == ns[i]
  {
    seq(|ns|, i requires 0 <= i < |ns| =>
      if ns[i].id == id then ns[i].(x := x, y := y) else ns[i])
  }

  /**
   * Moves the nodes with id `id`; count, order, ids and names are preserved,
   * and a snapshot is committed even when no node matches.
   */
  function MoveNode(s: Store, id: string, x: int, y: int): (r: Store)
    ensures Commits(s, r)
    ensures |r.doc.nodes| == |s.doc.nodes|
    ensures forall i :: 0 <= i < |s.doc.nodes| ==>
      r.doc.nodes[i].id == s.doc.nodes[i].id && r.doc.nodes[i].name == s.doc.nodes[i].name
    ensures forall i :: 0 <= i < |s.doc.nodes| && s.doc.nodes[i].id == id ==>
      r.doc.nodes[i].x == x && r.doc.nodes[i].y == y
    ensures forall i :: 0 <= i < |s.doc.nodes| && s.doc.nodes[i].id != id ==>
      r.doc.nodes[i] == s.doc.nodes[i]
    ensures r.doc.connections == s.doc.connections
  {
    PushHistory(s, Doc(MoveAll(s.doc.nodes, id, x, y), s.doc.connections))
  }

  /** Keep-predicate of the node filter in `removeNode`. */
  function OtherNode(id: string): StateNode -> bool {
    (n: StateNode) => n.id != id
  }

  /** Keep-predicate of the connection filter in `removeNode`. */
  function Unattached(id: string): Transition -> bool {
    (c: Transition) => c.from != id && c.to != id
  }

  /**
   * Cascading delete: no node with `id` and no connection touching `id` is
   * left; every other node and connection is kept, with all its copies, in
   * its relative order.
   */
  function RemoveNode(s: Store, id: string): (r: Store)
    ensures Commits(s, r)
    ensures !HasNode(r.doc.nodes, id)
    ensures forall j :: 0 <= j < |r.doc.connections| ==>
      r.doc.connections[j].from != id && r.doc.connections[j].to != id
    ensures forall i :: 0 <= i < |s.doc.nodes| && s.doc.nodes[i].id != id ==>
      s.doc.nodes[i] in r.doc.nodes
    ensures forall j :: 0 <= j < |s.doc.connections| ==>
      (s.doc.connections[j].from != id && s.doc.connections[j].to != id ==>
         s.doc.connections[j] in r.doc.connections)
    ensures forall i :: 0 <= i < |s.doc.nodes| && s.doc.nodes[i].id != id ==>
      multiset(r.doc.nodes)[s.doc.nodes[i]] == multiset(s.doc.nodes)[s.doc.nodes[i]]
    ensures forall j :: 0 <= j < |s.doc.connections| ==>
      (s.doc.connections[j].from != id && s.doc.connections[j].to != id ==>
         multiset(r.doc.connections)[s.doc.connections[j]]
           == multiset(s.doc.connections)[s.doc.connections[j]])
    ensures IsSubsequence(r.doc.nodes, s.doc.nodes)
    ensures IsSubsequence(r.doc.connections, s.doc.connections)
  {
    var nodes := Filter(s.doc.nodes, OtherNode(id));
    var connections := Filter(s.doc.connections, Unattached(id));
    PushHistory(s, Doc(nodes, connections))
  }

  /** The generated label `event<n>`: the word `event` followed by a number that reads back as `n`. */
  function EventLabel(n: nat): (r: string)
    ensures |r| > 5 && r[..5] == "event"
    ensures forall i :: 5 <= i < |r| ==> IsDigit(r[i])
    ensures ParseDecimal(r[5..]) == n
  {
    ParseNatToString(n);
    var r := "event" + NatToString(n);
    assert r[5..] == NatToString(n);
    r
  }

  /**
   * Appends a connection `from -> to` labelled `event<count + 1>`; no check
   * that the endpoints differ or exist.
   */
  function ConnectNodes(s: Store, from: string, to: string): (r: Store)
    ensures Commits(s, r)
    ensures r.doc.nodes == s.doc.nodes
    ensures |r.doc.connections| == |s.doc.connections| + 1
    ensures r.doc.connections[..|s.doc.connections|] == s.doc.connections
    ensures r.doc.connections[|s.doc.connections|].from == from
    ensures r.doc.connections[|s.doc.connections|].to == to
    ensures r.doc.connections[|s.doc.connections|].caption
              == Some(EventLabel(|s.doc.connections| + 1))
  {
    var c := Transition(from, to, Some(EventLabel(|s.doc.connections| + 1)));
    PushHistory(s, Doc(s.doc.nodes, s.doc.connections + [c]))
  }

  /** Sets the selection; the document and history are untouched. */
  function SelectNode(s: Store, id: Option<string>): (r: Store)
    ensures r.selectedNode == id
    ensures r.doc == s.doc && r.history == s.history && r.historyIndex == s.historyIndex
  {
    s.(selectedNode := id)
  }

  /** Wholesale replacement of the document, committed like any edit. */
  function SetState(s: Store, d: Doc): (r: Store)
    ensures Commits(s, r) && r.doc == d
  {
    PushHistory(s, d)
  }

  /**
   * Steps the cursor back when it is above 0, making the previous snapshot
   * live. Requires that the snapshot it would read exists (the source would
   * otherwise dereference `undefined`).
   */
  function Undo(s: Store): (r: Store)
    requires s.historyIndex <= |s.history|
    ensures r.history == s.history && r.selectedNode == s.selectedNode
    ensures r == s <==> s.historyIndex <= 0
    ensures s.historyIndex > 0 ==>
      r.historyIndex == s.historyIndex - 1 && r.doc == s.history[s.historyIndex - 1]
    ensures Valid(s) ==> Valid(r)
  {
    if s.historyIndex > 0 then
      s.(doc := s.history[s.historyIndex - 1], historyIndex := s.historyIndex - 1)
    else s
  }

  /**
   * Steps the cursor forward when a later snapshot exists. Requires that the
   * snapshot it would read exists.
   */
  function Redo(s: Store): (r: Store)
    requires s.historyIndex >= -1
    ensures r.history == s.history && r.selectedNode == s.selectedNode
    ensures r == s <==> s.historyIndex >= |s.history| - 1
    ensures s.historyIndex < |s.history| - 1 ==>
      r.historyIndex == s.historyIndex + 1 && r.doc == s.history[s.historyIndex + 1]
    ensures Valid(s) ==> Valid(r)
  {
    if s.historyIndex < |s.history| - 1 then
      s.(doc := s.history[s.historyIndex + 1], historyIndex := s.historyIndex + 1)
    else s
  }

  // ---------------------------------------------------------------------
  // Properties relating several operations
  // ---------------------------------------------------------------------

  /** Undo followed by redo restores the store exactly. */
  lemma UndoThenRedo(s: Store)
    requires Valid(s) && s.historyIndex > 0
    ensures Redo(Undo(s)) == s
  {
  }

  /** Redo followed by undo restores the store exactly. */
  lemma RedoThenUndo(s: Store)
    requires Valid(s) && s.historyIndex < |s.history| - 1
    ensures Undo(Redo(s)) == s
  {
  }

  /**
   * A commit keeps the history up to the old cursor, adds exactly one
   * snapshot after it, and leaves nothing to redo.
   */
  lemma CommitKeepsPast(s: Store, d: Doc)
    requires Valid(s)
    ensures var r := PushHistory(s, d);
      && |r.history| == s.historyIndex + 2
      && r.history[..s.historyIndex + 1] == s.history[..s.historyIndex + 1]
      && r.history[s.historyIndex + 1] == d
      && Redo(r) == r
  {
  }

  /**
   * An edit made after an undo discards the undone future: the history ends
   * at the new snapshot, one past the undone-to cursor, and redo does nothing.
   */
  lemma EditAfterUndoDiscardsFuture(s: Store, d: Doc)
    requires Valid(s) && s.historyIndex > 0
    ensures var r := PushHistory(Undo(s), d);
      && |r.history| == s.historyIndex + 1
      && r.history[..s.historyIndex] == s.history[..s.historyIndex]
      && r.historyIndex == |r.history| - 1
      && Redo(r) == r
  {
  }

  /**
   * The first commit onto a fresh (empty-history) store cannot be undone:
   * the cursor lands on 0 and undo is a no-op there.
   */
  lemma FirstCommitNotUndoable(s: Store, d: Doc)
    requires Valid(s) && s.history == []
    ensures var r := PushHistory(s, d);
      && r.history == [d] && r.historyIndex == 0
      && Undo(r) == r
  {
  }

  /**
   * Moving to an id no node carries still commits a snapshot, identical to
   * the live document.
   */
  lemma MoveMissingCommitsDuplicate(s: Store, id: string, x: int, y: int)
    requires Valid(s) && s.historyIndex >= 0
    requires !HasNode(s.doc.nodes, id)
    ensures var r := MoveNode(s, id, x, y);
      && r.doc == s.doc
      && |r.history| == s.historyIndex + 2
      && r.history[r.historyIndex] == r.history[r.historyIndex - 1]
  {
  }

  /** Removing a node keeps a dangling-free document dangling-free. */
  lemma RemoveNodeKeepsClosed(s: Store, id: string)
    requires Closed(s.doc)
    ensures Closed(RemoveNode(s, id).doc)
  {
  }

  /** The removal filters distribute over a split of the document. */
  lemma RemoveNodeKeepsOrder(s: Store, id: string,
                             n1: seq<StateNode>, n2: seq<StateNode>,
                             c1: seq<Transition>, c2: seq<Transition>)
    requires s.doc.nodes == n1 + n2 && s.doc.connections == c1 + c2
    ensures RemoveNode(s, id).doc.nodes
              == Filter(n1, OtherNode(id)) + Filter(n2, OtherNode(id))
    ensures RemoveNode(s, id).doc.connections
              == Filter(c1, Unattached(id)) + Filter(c2, Unattached(id))
  {
    FilterConcat(n1, n2, OtherNode(id));
    FilterConcat(c1, c2, Unattached(id));
  }

  /** Removing an id nothing refers to commits the live document unchanged. */
  lemma RemoveAbsentNode(s: Store, id: string)
    requires !HasNode(s.doc.nodes, id)
    requires forall j :: 0 <= j < |s.doc.connections| ==>
      s.doc.connections[j].from != id && s.doc.connections[j].to != id
    ensures RemoveNode(s, id).doc == s.doc
  {
    FilterKeepsAll(s.doc.nodes, OtherNode(id));
    FilterKeepsAll(s.doc.connections, Unattached(id));
  }

  // ---------------------------------------------------------------------
  // Generated labels
  // ---------------------------------------------------------------------

  /** Distinct counts give distinct generated labels. */
  lemma EventLabelInjective(a: nat, b: nat)
    requires EventLabel(a) == EventLabel(b)
    ensures a == b
  {
  }

  /** The connections carry the labels `event1, event2, ...` in order. */
  predicate Numbered(cs: seq<Transition>) {
    forall j :: 0 <= j < |cs| ==> cs[j].caption == Some(EventLabel(j + 1))
  }

  /** While connections are only appended, labels stay numbered and distinct. */
  lemma ConnectKeepsNumbered(s: Store, from: string, to: string)
    requires Numbered(s.doc.connections)
    ensures var cs := ConnectNodes(s, from, to).doc.connections;
      && Numbered(cs)
      && forall i, j :: 0 <= i < j < |cs| ==> cs[i].caption != cs[j].caption
  {
    var cs := ConnectNodes(s, from, to).doc.connections;
    forall i, j | 0 <= i < j < |cs|
      ensures cs[i].caption != cs[j].caption
    {
      if cs[i].caption == cs[j].caption {
        EventLabelInjective(i + 1, j + 1);
      }
    }
  }

  /**
   * Labels are positional, so after a removal a new connection can repeat
   * an existing label: from a fresh store, connect a->a (`event1`) and
   * b->b (`event2`), remove a, and the next connection is `event2` again.
   */
  lemma LabelRepeatsAfterRemoval()
    ensures var s0 := ConnectNodes(ConnectNodes(
                        AddNode(AddNode(Init(), StateNode("a", "A", 0, 0)), StateNode("b", "B", 0, 0)),
                        "a", "a"), "b", "b");
      var s2 := ConnectNodes(RemoveNode(s0, "a"), "b", "b");
      && Valid(s2)
      && |s2.doc.connections| == 2
      && s2.doc.connections[0].caption == s2.doc.connections[1].caption
  {
  }

  // ---------------------------------------------------------------------
  // Sessions: sequences of store calls
  // ---------------------------------------------------------------------

  /** One call into the store. */
  datatype Action =
    | AddNodeCall(node: StateNode)
    | MoveNodeCall(id: string, x: int, y: int)
    | RemoveNodeCall(id: string)
    | ConnectNodesCall(from: string, to: string)
    | SetStateCall(data: Doc)
    | SelectNodeCall(selection: Option<string>)
    | UndoCall
    | RedoCall

  /** The calls that commit a snapshot. */
  predicate IsEdit(a: Action) {
    !(a.SelectNodeCall? || a.UndoCall? || a.RedoCall?)
  }

  /** Performs one call on a valid store. */
  function Apply(s: Store, a: Action): (r: Store)
    requires Valid(s)
    ensures Valid(r)
    ensures IsEdit(a) ==> Commits(s, r) && |r.history| == s.historyIndex + 2
    ensures !IsEdit(a) ==> r.history == s.history
  {
    match a
    case AddNodeCall(n) => AddNode(s, n)
    case MoveNodeCall(id, x, y) => MoveNode(s, id, x, y)
    case RemoveNodeCall(id) => RemoveNode(s, id)
    case ConnectNodesCall(f, t) => ConnectNodes(s, f, t)
    case SetStateCall(d) => SetState(s, d)
    case SelectNodeCall(sel) => SelectNode(s, sel)
    case UndoCall => Undo(s)
    case RedoCall => Redo(s)
  }

  /** Performs the calls in order. */
  function Run(s: Store, actions: seq<Action>): (r: Store)
    requires Valid(s)
    ensures Valid(r)
    ensures (forall i :: 0 <= i < |actions| ==> !IsEdit(actions[i])) ==>
      r.history == s.history
    decreases |actions|
  {
    if actions == [] then s else Run(Apply(s, actions[0]), actions[1..])
  }

  /**
   * With the cursor at the end, N edits and no undo add exactly N snapshots
   * and leave the cursor on the last one.
   */
  lemma {:induction false} EditsExtendHistory(s: Store, actions: seq<Action>)
    requires Valid(s) && s.historyIndex == |s.history| - 1
    requires forall i :: 0 <= i < |actions| ==> IsEdit(actions[i])
    ensures |Run(s, actions).history| == |s.history| + |actions|
    ensures Run(s, actions).historyIndex == |s.history| + |actions| - 1
    decreases |actions|
  {
    if actions != [] {
      var t := Apply(s, actions[0]);
      EditsExtendHistory(t, actions[1..]);
    }
  }

  /** From a fresh store, N edits give N snapshots with the cursor on the last. */
  lemma EditsFromInit(actions: seq<Action>)
    requires forall i :: 0 <= i < |actions| ==> IsEdit(actions[i])
    ensures |Run(Init(), actions).history| == |actions|
    ensures Run(Init(), actions).historyIndex == |actions| - 1
  {
    EditsExtendHistory(Init(), actions);
  }
}

=== FILE: exporter.dfy ===
/**
 * The export projection behind the "Export JSON" button: a document becomes
 * a state machine keyed by state name, then event, giving the destination
 * state's name. The `on` wrapper of the exported JSON is implicit: the inner
 * map is the `on` object.
 */
module Exporter {
  import opened Wrappers
  import opened Document

  /** state name -> (event -> destination state name) */
  type Machine = map<string, map<string, string>>

  /** The event a transition exports under: its label, or `"event"` when absent or empty. */
  function EventKey(c: Transition): (k: string)
    ensures k != ""
    ensures c.caption.Some? && c.caption.value != "" ==> k == c.caption.value
    ensures !(c.caption.Some? && c.caption.value != "") ==> k == "event"
  {
    if c.caption.Some? && c.caption.value != "" then c.caption.value else "event"
  }

  /** Every node's name mapped to an empty event table, in node order. */
  function Skeleton(ns: seq<StateNode>): (m: Machine)
    ensures m.Keys == Names(ns)
    ensures forall name :: name in m ==> m[name] == map[]
  {
    if ns == [] then map[]
    else
      var prefix := ns[..|ns| - 1];
      assert ns == prefix + [ns[|ns| - 1]];
      assert Names(ns) == Names(prefix) + {ns[|ns| - 1].name} by {
        forall name | name in Names(ns) ensures name in Names(prefix) + {ns[|ns| - 1].name} {
          var i :| 0 <= i < |ns| && ns[i].name == name;
          if i < |ns| - 1 {
            assert prefix[i] == ns[i];
          }
        }
        forall name | name in Names(prefix) ensures name in Names(ns) {
          var i :| 0 <= i < |prefix| && prefix[i].name == name;
          assert ns[i] == prefix[i];
        }
      }
      Skeleton(prefix)[ns[|ns| - 1].name := map[]]
  }

  /** Both endpoints of `c` name a node of `ns`. */
  predicate Resolves(ns: seq<StateNode>, c: Transition) {
    FindNode(ns, c.from).Some? && FindNode(ns, c.to).Some?
  }

  /** Records one transition, or leaves `m` as it is when it dangles. */
  function Record(m: Machine, ns: seq<StateNode>, c: Transition): (r: Machine)
    requires Names(ns) <= m.Keys
    ensures r.Keys == m.Keys
    ensures !Resolves(ns, c) ==> r == m
    ensures Resolves(ns, c) ==>
      var src := FindNode(ns, c.from).value.name;
      && (forall name :: name in m && name != src ==> r[name] == m[name])
      && r[src] == m[src][EventKey(c) := FindNode(ns, c.to).value.name]
  {
    match (FindNode(ns, c.from), FindNode(ns, c.to))
    case (Some(fromNode), Some(toNode)) =>
      assert fromNode.name in Names(ns) by {
        var i :| 0 <= i < |ns| && ns[i] == fromNode;
      }
      m[fromNode.name := m[fromNode.name][EventKey(c) := toNode.name]]
    case _ => m
  }

  /** Records the transitions in order, so a later one overwrites an earlier one. */
  function RecordAll(m: Machine, ns: seq<StateNode>, cs: seq<Transition>): (r: Machine)
    requires Names(ns) <= m.Keys
    ensures r.Keys == m.Keys
  {
    if cs == [] then m
    else Record(RecordAll(m, ns, cs[..|cs| - 1]), ns, cs[|cs| - 1])
  }

  /** The exported machine of `d`. */
  function Export(d: Doc): (r: Machine)
    ensures r.Keys == Names(d.nodes)
  {
    RecordAll(Skeleton(d.nodes), d.nodes, d.connections)
  }

  // ---------------------------------------------------------------------
  // Reference definition and the properties of the export
  // ---------------------------------------------------------------------

  /**
   * The destination the export should record for state `name` and event
   * `key`: that of the LAST resolving transition leaving a node named
   * `name` under `key`, if any.
   */
  function Target(ns: seq<StateNode>, cs: seq<Transition>, name: string, key: string): Option<string> {
    if cs == [] then None
    else
      var c := cs[|cs| - 1];
      if Resolves(ns, c) && FindNode(ns, c.from).value.name == name && EventKey(c) == key
      then Some(FindNode(ns, c.to).value.name)
      else Target(ns, cs[..|cs| - 1], name, key)
  }

  /** Lookup of `key` in an event table. */
  function Get(table: map<string, string>, key: string): Option<string> {
    if key in table then Some(table[key]) else None
  }

  lemma {:induction false} RecordAllEntry(m: Machine, ns: seq<StateNode>, cs: seq<Transition>,
                                          name: string, key: string)
    requires Names(ns) <= m.Keys && name in m
    ensures Get(RecordAll(m, ns, cs)[name], key)
              == (if Target(ns, cs, name, key).Some? then Target(ns, cs, name, key)
                  else Get(m[name], key))
    decreases |cs|
  {
    if cs != [] {
      RecordAllEntry(m, ns, cs[..|cs| - 1], name, key);
    }
  }

  /**
   * Every exported entry agrees with the reference: state `name` has an
   * entry for `key` exactly when some resolving transition from a node
   * named `name` exports under `key`, and the entry is the last such
   * transition's destination.
   */
  lemma ExportEntry(d: Doc, name: string, key: string)
    requires name in Names(d.nodes)
    ensures key in Export(d)[name] <==> Target(d.nodes, d.connections, name, key).Some?
    ensures key in Export(d)[name] ==>
      Export(d)[name][key] == Target(d.nodes, d.connections, name, key).value
  {
    RecordAllEntry(Skeleton(d.nodes), d.nodes, d.connections, name, key);
  }

  /** A transition with a missing endpoint contributes nothing. */
  lemma DanglingIgnored(d: Doc, c: Transition)
    requires !Resolves(d.nodes, c)
    ensures Export(Doc(d.nodes, d.connections + [c])) == Export(d)
  {
  }

  /**
   * An appended resolving transition wins its slot: it overwrites whatever
   * an earlier transition recorded for the same state name and event, and
   * every other entry is unchanged.
   */
  lemma LaterTransitionWins(d: Doc, c: Transition)
    requires Resolves(d.nodes, c)
    ensures var e := Export(Doc(d.nodes, d.connections + [c]));
      var src := FindNode(d.nodes, c.from).value.name;
      && e[src][EventKey(c)] == FindNode(d.nodes, c.to).value.name
      && (forall name :: name in e && name != src ==> e[name] == Export(d)[name])
      && e[src].Keys == Export(d)[src].Keys + {EventKey(c)}
      && (forall k :: k in Export(d)[src] && k != EventKey(c) ==> k in e[src] && e[src][k] == Export(d)[src][k])
  {
    var cs := d.connections + [c];
    assert cs[..|cs| - 1] == d.connections;
  }

  /** Without connections, every state exports an empty event table. */
  lemma ExportWithoutConnections(ns: seq<StateNode>)
    ensures forall name :: name in Export(Doc(ns, [])) ==> Export(Doc(ns, []))[name] == map[]
  {
  }

  /** The empty document exports the empty machine. */
  lemma ExportEmpty()
    ensures Export(EmptyDoc()) == map[]
  {
  }

  /**
   * The end-to-end scenario: two nodes "State 1" and "State 2" with one
   * transition `event1` between them.
   */
  lemma ExportScenario()
    ensures var a := StateNode("a", "State 1", 0, 0);
      var b := StateNode("b", "State 2", 0, 0);
      Export(Doc([a, b], [Transition("a", "b", Some("event1"))]))
        == map["State 1" := map["event1" := "State 2"], "State 2" := map[]]
  {
  }
}

=== FILE: node_view.dfy ===
/**
 * The gesture rules of one state box: click-to-select / click-to-connect and
 * the drag-end move.
 */
module NodeView {
  import opened Wrappers
  import opened Document
  import opened EditorStore

  /**
   * Whether a selection is truthy in JavaScript: a selected empty-string id
   * counts as no selection.
   */
  predicate HasSelection(sel: Option<string>): (b: bool)
    ensures !b <==> sel == None || sel == Some("")
  {
    sel.Some? && sel.value != ""
  }

  /**
   * Click on node `id`: with a different node selected, connect the selected
   * node to `id` and clear the selection; otherwise select `id`.
   */
  function Click(s: Store, id: string): (r: Store)
    ensures HasSelection(s.selectedNode) && s.selectedNode.value != id ==>
      && r.selectedNode == None
      && Commits(s.(selectedNode := None), r)
      && r.doc.nodes == s.doc.nodes
      && |r.doc.connections| == |s.doc.connections| + 1
      && r.doc.connections[..|s.doc.connections|] == s.doc.connections
      && r.doc.connections[|s.doc.connections|].from == s.selectedNode.value
      && r.doc.connections[|s.doc.connections|].to == id
      && r.doc.connections[|s.doc.connections|].caption
           == Some(EventLabel(|s.doc.connections| + 1))
    ensures !(HasSelection(s.selectedNode) && s.selectedNode.value != id) ==>
      && r.selectedNode == Some(id)
      && r.doc == s.doc && r.history == s.history && r.historyIndex == s.historyIndex
  {
    if HasSelection(s.selectedNode) && s.selectedNode.value != id then
      SelectNode(ConnectNodes(s, s.selectedNode.value, id), None)
    else
      SelectNode(s, Some(id))
  }

  /** A click either leaves the connections alone or appends one that is not a self-loop. */
  lemma ClickNeverSelfLoops(s: Store, id: string)
    ensures var r := Click(s, id);
      || r.doc.connections == s.doc.connections
      || (&& |r.doc.connections| == |s.doc.connections| + 1
          && r.doc.connections[..|s.doc.connections|] == s.doc.connections
          && r.doc.connections[|s.doc.connections|].from
               != r.doc.connections[|s.doc.connections|].to)
  {
  }

  /** Clicking the selected node again keeps it selected and adds nothing. */
  lemma ClickSelectedAgain(s: Store, id: string)
    requires s.selectedNode == Some(id)
    ensures Click(s, id) == s
  {
  }

  /** Two clicks on different nodes from no selection draw one transition between them. */
  lemma TwoClicksConnect(s: Store, a: string, b: string)
    requires !HasSelection(s.selectedNode)
    requires a != "" && a != b
    ensures var r := Click(Click(s, a), b);
      && r.selectedNode == None
      && r.doc.connections == s.doc.connections
           + [Transition(a, b, Some(EventLabel(|s.doc.connections| + 1)))]
      && r.doc.nodes == s.doc.nodes
  {
  }

  /**
   * Drag end on the box of node `id`: `x, y` are the box's own rendered
   * position and `dx, dy` the drag offset; commits exactly one snapshot
   * moving the node to `(x + dx, y + dy)`.
   */
  function DragEnd(s: Store, id: string, x: int, y: int, dx: int, dy: int): (r: Store)
    ensures Commits(s, r)
    ensures Valid(s) ==> |r.history| == s.historyIndex + 2
    ensures |r.doc.nodes| == |s.doc.nodes|
    ensures forall i :: 0 <= i < |s.doc.nodes| ==>
      r.doc.nodes[i].id == s.doc.nodes[i].id && r.doc.nodes[i].name == s.doc.nodes[i].name
    ensures forall i :: 0 <= i < |s.doc.nodes| && s.doc.nodes[i].id == id ==>
      r.doc.nodes[i].x == x + dx && r.doc.nodes[i].y == y + dy
    ensures forall i :: 0 <= i < |s.doc.nodes| && s.doc.nodes[i].id != id ==>
      r.doc.nodes[i] == s.doc.nodes[i]
    ensures r.doc.connections == s.doc.connections
  {
    MoveNode(s, id, x + dx, y + dy)
  }

  /** Dragging a box from its own rendered position moves its node by exactly the offset. */
  lemma DragFromOwnPosition(s: Store, i: nat, dx: int, dy: int)
    requires i < |s.doc.nodes|
    ensures var n := s.doc.nodes[i];
      DragEnd(s, n.id, n.x, n.y, dx, dy).doc.nodes[i] == n.(x := n.x + dx, y := n.y + dy)
  {
  }
}

=== FILE: seqs.dfy ===
/** Order-preserving filtering of sequences, the model of JavaScript's `Array.prototype.filter`. */
module Seqs {

  /** `a` can be obtained from `b` by deleting elements, keeping the rest in order. */
  predicate IsSubsequence<T(==)>(a: seq<T>, b: seq<T>)
    decreases |b|
  {
    if a == [] then true
    else if b == [] then false
    else if a[0] == b[0] then IsSubsequence(a[1..], b[1..])
    else IsSubsequence(a, b[1..])
  }

  /** The elements of `s` that satisfy `keep`, each as often as in `s`, in their original order. */
  function Filter<T(==)>(s: seq<T>, keep: T -> bool): (r: seq<T>)
    ensures |r| <= |s|
    ensures forall i :: 0 <= i < |r| ==> keep(r[i]) && r[i] in s
    ensures forall i :: 0 <= i < |s| && keep(s[i]) ==> s[i] in r
    ensures forall i :: 0 <= i < |s| && keep(s[i]) ==> multiset(r)[s[i]] == multiset(s)[s[i]]
    ensures IsSubsequence(r, s)
  {
    if s == [] then []
    else
      assert s == [s[0]] + s[1..];
      if keep(s[0]) then [s[0]] + Filter(s[1..], keep)
      else Filter(s[1..], keep)
  }

  /** Filtering distributes over concatenation: filtering never reorders what it keeps. */
  lemma {:induction false} FilterConcat<T>(a: seq<T>, b: seq<T>, keep: T -> bool)
    ensures Filter(a + b, keep) == Filter(a, keep) + Filter(b, keep)
    decreases |a|
  {
    if a == [] {
      assert a + b == b;
    } else {
      assert (a + b)[0] == a[0];
      assert (a + b)[1..] == a[1..] + b;
      FilterConcat(a[1..], b, keep);
    }
  }

  /** A filter that every element passes returns its input unchanged. */
  lemma {:induction false} FilterKeepsAll<T>(s: seq<T>, keep: T -> bool)
    requires forall i :: 0 <= i < |s| ==> keep(s[i])
    ensures Filter(s, keep) == s
    decreases |s|
  {
    if s != [] {
      FilterKeepsAll(s[1..], keep);
    }
  }
}

=== FILE: wrappers.dfy ===
/** The optional-value datatype used for selections, optional labels and lookups. */
module Wrappers {

  /** `None` stands for JavaScript's `null`/`undefined`; `Some(v)` for a present value. */
  datatype Option<+T> = None | Some(value: T)
}
